=== FILE: README.md ===
# Backtest strategy and performance metrics, modelled in Dafny

This project models the two parts of the trading pipeline that hold logic of their own:

- **The backtest strategy** (`exec/backtester.py`), in module `Backtester` (`backtester.dfy`).
  - `SimpleStrategy` becomes the class `Backtester.Strategy`. Its fields are the pending order, the executed buy and sell prices, and the bar of the last fill.
  - `Next` applies the long/flat rule to the bar's signal rows. `NotifyOrder` moves the pending order through the broker's statuses.
  - Both methods are proved against the pure functions `Decide`, `AfterNext` and `AfterNotify`. `Run` delivers a sequence of engine events to the strategy. It is proved against the fold `Replay`, and lemmas about `Replay` state the properties of the whole order lifecycle.
  - `BuyHoldSellScenario` drives one strategy through a buy, a hold and a sell, using only the methods' contracts.
  - `CustomSizer._getsizing` becomes `Sizing`. The feed-loading loop and broker configuration of `run_backtest` become `LoadFeeds` and `RunBacktest`.
- **The performance metrics** (`eval/metrics.py`, `calculate_metrics`), in module `Metrics` (`metrics.dfy`).
  - These are recursive functions over an equity curve of exact, positive reals: period returns, total return, sample standard deviation, annualised volatility, Sharpe ratio with its zero-deviation guard, running maximum and maximum drawdown.

The backtrader engine decides things the strategy cannot see, so they are inputs here:
- the broker's position for the strategy's feed when `next()` runs;
- the status, side and executed price of every order notification;
- `len(self)` at that moment.

Two database queries are also inputs:
- The signal query for the bar's (date, symbol) is the sequence of rows it returned, in the order the database returned them.
- The per-symbol OHLCV query is the function `ohlcv` from a symbol to its bars in the date range.

The square root is a parameter of type `Metrics.SqrtFn`: any function that is non-negative on non-negative inputs and zero exactly at zero.

Behaviour of the code worth noting:

- **Side labels.** The side is the string the signal table holds, compared with `"BUY"` and `"SELL"`. Any other label, `"HOLD"` included, places nothing.
- **SELL while flat.** This places no order at all. It is not an order that gets rejected.
- **One feed per strategy.** `next()` reads only `self.data` and `self.position`, which are the first feed's. With several symbols, only the first feed added is traded. The model is one feed per `Strategy`.
- **Unused parameters.** The `long_threshold` and `short_threshold` parameters are stored and never read. `alpha` is only logged, so whether an order is placed depends only on the first row's side and the position.
- **The sizer is never consulted.** Both orders carry their size: `buy(size=stake)`, and `close()` sizes the order by the position. `CustomSizer` is modelled, but no model member relies on it.
- **Two-point curves.** pandas' `std()` is the sample deviation (ddof = 1). A two-point curve has one return, so the deviation is NaN. `NaN != 0` holds, so the guard does not apply: volatility and Sharpe are NaN, not 0 (`Metrics.TwoPointsGiveNaN`). `Metrics.Float` keeps that NaN.
- **Fills, cash and commission.** These belong to the engine, so the model makes no claim about when or at what price an order fills.

## Model

| member | source | states |
|---|---|---|
| `Backtester.Sizing` | exec/backtester.py:7-13 | the sizer returns the stake for a buy and for a sell, whatever the cash |
| `Backtester.CloseOrder` | exec/backtester.py:70-72 | `close()` on a non-zero position places an order of positive size opposite to the position that brings it back to zero (a sell when long) |
| `Backtester.Decide` | exec/backtester.py:48-75 | an order is placed only when none is pending and a signal row exists. It is then either a buy of `stake` on a `BUY` side while the position is zero, or, on a `SELL` side while a position is held, the `CloseOrder` of that position, which trades opposite to it and brings it back to zero. In those two cases an order is always placed; every other case places nothing |
| `Backtester.AfterNext` | exec/backtester.py:48-75 | `next()` never touches the fill records; with an order pending it changes nothing; otherwise the pending order becomes the order placed, if any |
| `Backtester.AfterNotify` | exec/backtester.py:30-46 | Submitted/Accepted change nothing. Every other status clears the pending order. A Completed buy appends its price to `buys` only, a Completed sell to `sells` only, and no other status appends anything. `bar_executed` becomes the bar count on Completed and is otherwise kept |
| `Backtester.ReplayRecordsFills` | exec/backtester.py:34-44 | over any run of events, `buys` gains exactly the prices of the Completed buy notifications, and `sells` those of the Completed sell notifications, in order |
| `Backtester.OneOrderOutstanding` | exec/backtester.py:26-50 | over any run of events, orders placed plus the one pending at the start never exceed clearing notifications plus the one pending at the end: at most one order is pending in the strategy's bookkeeping (a Partial notice counts as clearing; see Left out) |
| `Backtester.PlacedAtMostClearedPlusOne` | exec/backtester.py:24-50 | from a fresh strategy, the number of orders placed is at most the number of clearing notifications plus one |
| `Backtester.OnlyFirstSideMatters` | exec/backtester.py:62-72 | the decision depends only on the first row's side: not on alpha, and not on later rows |
| `Backtester.PendingBlocksNext` | exec/backtester.py:49-50 | with an order pending, `next()` places nothing and leaves the state unchanged |
| `Backtester.Strategy.constructor` | exec/backtester.py:15-28 | a new strategy has the given stake and thresholds (defaults 1, 0.5, -0.5), no pending order and empty fill records |
| `Backtester.Strategy.Next` | exec/backtester.py:48-75 | returns the order `Decide` places and updates the fields as `AfterNext` says |
| `Backtester.Strategy.NotifyOrder` | exec/backtester.py:30-46 | updates the fields as `AfterNotify` says, including `bar_executed` on a Completed order |
| `Backtester.Strategy.Run` | exec/backtester.py:30-75 | delivering events one by one leaves the state `Replay` gives and returns the orders `Placed` lists |
| `Backtester.LoadFeeds` | exec/backtester.py:89-109 | one feed is added per entry of `symbols` that has bars, so there are as many feeds as such entries and at most one per entry; a repeated symbol gets a feed per occurrence. Each has bars, names a requested symbol and carries that symbol's bars. Every symbol with bars gets its feed. No feed is added exactly when every symbol has no bars |
| `Backtester.LoadFeedsPrefix` | exec/backtester.py:91-108 | the feeds loaded for the first i symbols are a prefix of the feeds loaded for all of them: the loop only appends |
| `Backtester.LoadFeedsSkips` | exec/backtester.py:94-96 | a symbol without bars adds nothing: the feeds up to it are the feeds up to the symbol before it |
| `Backtester.LoadFeedsAppends` | exec/backtester.py:92-108 | a symbol with bars adds exactly its own feed after the feeds of the symbols before it |
| `Backtester.LoadFeedsGrow` | exec/backtester.py:91-108 | the feeds loaded for the first i symbols are a prefix of those loaded for the first j, for i <= j |
| `Backtester.FeedPositionIncreases` | exec/backtester.py:91-108 | a symbol with bars has its feed before the position of every later symbol |
| `Backtester.LoadFeedsInOrder` | exec/backtester.py:91-108 | feeds follow the order of the symbols: each symbol with bars has its feed at the position after the earlier symbols' feeds, the first symbol with bars gets the first feed (the one the strategy trades), and later symbols' feeds come after it |
| `Backtester.RunBacktest` | exec/backtester.py:77-113 | returns early exactly when no symbol has bars. Otherwise the engine runs with the given cash (default 100000), the commission rate (default 0.001), strategy stake 1 with the two alpha bounds as thresholds, sizer stake 1 and the loaded feeds |
| `Metrics.Returns` | eval/metrics.py:13 | a curve of n points has n - 1 returns (none when empty) |
| `Metrics.ReturnAt` | eval/metrics.py:13 | the i-th return is point i+1 over point i, minus 1 |
| `Metrics.GrowthTelescopes` | eval/metrics.py:13-16 | compounding all returns gives the last point over the first |
| `Metrics.TotalReturnCompounds` | eval/metrics.py:13-16 | the total return equals the compounded returns minus 1 |
| `Metrics.TotalReturnEndpoints` | eval/metrics.py:16 | two curves with the same first and last points have the same total return |
| `Metrics.SampleVariance` | eval/metrics.py:19 | the sample variance is defined exactly for two or more values, and is then non-negative |
| `Metrics.SampleStd` | eval/metrics.py:19 | the sample deviation is defined exactly for two or more values; it is non-negative and zero exactly when the variance is |
| `Metrics.SquaredDeviationsZero` | eval/metrics.py:19 | the squared deviations from m sum to zero exactly when every value equals m |
| `Metrics.VarianceZeroIffConstant` | eval/metrics.py:19 | the sample variance is zero exactly when all values are equal |
| `Metrics.Annualize` | eval/metrics.py:19 | scaling by the positive annualisation factor keeps NaN as NaN, the sign and zero |
| `Metrics.CumMax` | eval/metrics.py:27 | the running maximum has one entry per point, and each point is at most its running maximum |
| `Metrics.CumMaxIsPrefixMax` | eval/metrics.py:27 | the running maximum at i is one of the first i+1 points and is at least each of them |
| `Metrics.CumMaxNonDecreasing` | eval/metrics.py:27 | the running maximum never decreases |
| `Metrics.Drawdowns` | eval/metrics.py:29 | the drawdown series has one entry per point |
| `Metrics.DrawdownBounds` | eval/metrics.py:29 | for positive equity every drawdown lies in (-1, 0], and is 0 exactly where the point equals its running maximum |
| `Metrics.Min` | eval/metrics.py:31 | the minimum is an element and is at most every element |
| `Metrics.MaxDrawdownBounds` | eval/metrics.py:27-31 | the maximum drawdown of positive equity lies in (-1, 0] |
| `Metrics.MaxDrawdownZeroIff` | eval/metrics.py:27-31 | the maximum drawdown is 0 exactly when the curve is non-decreasing |
| `Metrics.CalculateMetrics` | eval/metrics.py:6-38 | a curve shorter than two points, including an empty one, gives 0 for all four metrics. Volatility, when defined, is non-negative. From two points on, volatility and Sharpe are defined exactly from three points, and a zero volatility means a zero Sharpe ratio |
| `Metrics.SharpeZeroWhenStdZero` | eval/metrics.py:19-23 | when the returns' standard deviation is 0, the Sharpe ratio and the volatility are 0 |
| `Metrics.VolatilityZeroIffConstantReturns` | eval/metrics.py:19-23 | from three points on, volatility is 0 exactly when every period return is the same |
| `Metrics.TwoPointsGiveNaN` | eval/metrics.py:13-23 | a two-point curve gives NaN volatility and NaN Sharpe ratio |
| `Metrics.ReportedDrawdown` | eval/metrics.py:9-31 | the reported maximum drawdown lies in (-1, 0], and is 0 exactly for a short or non-decreasing curve |

## Left out

- **The backtrader engine.** This covers `cerebro.run`, the broker's cash and position arithmetic, and the commission charged on a fill. It also covers when and at what price orders fill, and how the engine orders bars and notifications. The engine's source is not part of this model. Position, status and executed price enter as inputs, and no claim is made about fills.
- **The database queries.** These are DuckDB I/O. The signal rows and the per-symbol bars are inputs, and the model takes the row order as given.
- **DataFrame conversions in `run_backtest`.** The date parsing, column capitalisation and feed date bounds are pandas conversions.
- **Logging and printing**, including the portfolio value printed before and after the run.
- **`log_metrics_to_mlflow`**: MLflow and file I/O.
- **Floating-point behaviour.** The metrics use exact reals. The only NaN kept is pandas' undefined sample deviation.
- **Non-positive equity.** `Metrics.CalculateMetrics` requires every equity value to be positive. A zero value divides by zero in the next period's return, giving an infinity or NaN. A zero first value also divides by zero in the total return and the first drawdown. A zero last value divides by nothing: [1, 0] gives a return, a total return and a maximum drawdown of -1, on the excluded bound. A negative value gives finite results outside the proved bounds: for the curve [1, -1] the only return is -2 and the maximum drawdown is -2, below -1. The model excludes both cases, and the bounds on returns and drawdowns hold only for positive equity.
- **`Metrics.SqrtFn`.** The square root is any function with its sign and zero properties. `np.sqrt`'s value is not computed.
- **Partial fills.** A Partial notification clears the strategy's pending order (exec/backtester.py:31-46) while the order is still live at the broker, so a later `next()` can place a second order. `Backtester.OneOrderOutstanding` counts only the strategy's bookkeeping, and the model says nothing about how many orders are live at the broker.
- **Stake size.** The engine's handling of a zero or negative stake is not modelled. `run_backtest` always uses the default stake 1.
- **The rest of the repository.** This covers ingestion, text normalisation, feature computation, the sentiment model, the live-trading client, the daily flow and their tests. They are I/O or calls into external libraries, and are not part of this model.

=== FILE: backtester.dfy ===
/**
 * The backtest trading rule of exec/backtester.py: SimpleStrategy's
 * pending-order state machine and long/flat rule, CustomSizer, and the
 * feed-loading and broker-configuration part of run_backtest.
 *
 * Everything the backtrader engine decides is an input here: the broker's
 * position for the strategy's data feed when a bar is processed, and the
 * status, side and executed price of every order notification. The signal
 * query for the bar's (date, symbol) is an input too: the rows it returned,
 * in the order the database returned them.
 */
module Backtester {

  datatype Option<T> = None | Some(value: T)

  /** One row of the aggregated-signals query: the alpha score and the side label. */
  datatype SignalRow = SignalRow(alpha: real, side: string)

  /** A market order placed by the strategy: its direction and its size in units. */
  datatype Order = Order(isBuy: bool, size: real)

  /** The statuses a backtrader order notification can carry. */
  datatype OrderStatus =
    | Created | Submitted | Accepted | Partial | Completed
    | Canceled | Expired | Margin | Rejected

  /** The fields SimpleStrategy keeps: the pending order, executed buy and sell prices, and the bar of the last fill. */
  datatype StrategyState = StrategyState(
    order: Option<Order>,
    buys: seq<real>,
    sells: seq<real>,
    barExecuted: Option<nat>)

  /** What the engine does to a strategy: run next() on a bar, or notify it of an order. */
  datatype Event =
    | NextBar(rows: seq<SignalRow>, position: real)
    | OrderNotice(status: OrderStatus, isBuy: bool, price: real, barsSeen: nat)

  const DefaultStake: real := 1.0
  const DefaultLongThreshold: real := 0.5
  const DefaultShortThreshold: real := -0.5
  const DefaultCash: real := 100000.0
  const DefaultCommission: real := 0.001

  const Initial: StrategyState := StrategyState(None, [], [], None)

  // ------------------------------------------------------------ the sizer

  /** CustomSizer._getsizing: the stake, whatever the side and the available cash. */
  function Sizing(stake: real, cash: real, isBuy: bool): (size: real)
    ensures size == stake
  {
    if isBuy then stake else stake
  }

  // ------------------------------------------------------- the trading rule

  /** The order close() places for a non-zero position: it takes the position back to zero. */
  function CloseOrder(position: real): (o: Order)
    requires position != 0.0
    ensures 0.0 < o.size
    ensures o.isBuy <==> position < 0.0
    ensures (if o.isBuy then position + o.size else position - o.size) == 0.0
  {
    if position > 0.0 then Order(false, position) else Order(true, -position)
  }

  /** The order next() places on one bar, given the pending order, the signal rows and the position. */
  function Decide(order: Option<Order>, rows: seq<SignalRow>, position: real, stake: real): (placed: Option<Order>)
    ensures placed.Some? ==> order.None? && rows != []
    ensures placed.Some? ==>
      (rows[0].side == "BUY" && position == 0.0 && placed.value == Order(true, stake)) ||
      (rows[0].side == "SELL" && position != 0.0 && placed.value == CloseOrder(position))
    ensures order.None? && rows != [] &&
      ((rows[0].side == "BUY" && position == 0.0) || (rows[0].side == "SELL" && position != 0.0))
      ==> placed.Some?
  {
    if order.Some? || rows == [] then None
    else if rows[0].side == "BUY" && position == 0.0 then Some(Order(true, stake))
    else if rows[0].side == "SELL" && position != 0.0 then Some(CloseOrder(position))
    else None
  }

  /** The strategy's state after next() on one bar. */
  function AfterNext(s: StrategyState, rows: seq<SignalRow>, position: real, stake: real): (t: StrategyState)
    ensures t.buys == s.buys && t.sells == s.sells && t.barExecuted == s.barExecuted
    ensures s.order.Some? ==> t == s
    ensures t.order == (if s.order.Some? then s.order else Decide(s.order, rows, position, stake))
  {
    match Decide(s.order, rows, position, stake)
    case Some(o) => s.(order := Some(o))
    case None => s
  }

  /** Submitted and Accepted are the two statuses that leave the order pending. */
  predicate KeepsPending(status: OrderStatus) {
    status == Submitted || status == Accepted
  }

  /** The strategy's state after notify_order(). */
  function AfterNotify(s: StrategyState, status: OrderStatus, isBuy: bool, price: real, barsSeen: nat): (t: StrategyState)
    ensures KeepsPending(status) ==> t == s
    ensures !KeepsPending(status) ==> t.order == None
    ensures t.buys == s.buys + (if status == Completed && isBuy then [price] else [])
    ensures t.sells == s.sells + (if status == Completed && !isBuy then [price] else [])
    ensures t.barExecuted == (if status == Completed then Some(barsSeen) else s.barExecuted)
  {
    if KeepsPending(status) then s
    else if status == Completed then
      var filled := if isBuy then s.(buys := s.buys + [price]) else s.(sells := s.sells + [price]);
      filled.(barExecuted := Some(barsSeen), order := None)
    else s.(order := None)
  }

  // ------------------------------------------------------ replaying events

  function Step(s: StrategyState, e: Event, stake: real): StrategyState {
    match e
    case NextBar(rows, position) => AfterNext(s, rows, position, stake)
    case OrderNotice(status, isBuy, price, barsSeen) => AfterNotify(s, status, isBuy, price, barsSeen)
  }

  /** The state after the engine delivers the events in order. */
  function Replay(s: StrategyState, events: seq<Event>, stake: real): StrategyState
    decreases |events|
  {
    if events == [] then s else Replay(Step(s, events[0], stake), events[1..], stake)
  }

  /** The orders placed while the events are delivered, in order. */
  function Placed(s: StrategyState, events: seq<Event>, stake: real): seq<Order>
    decreases |events|
  {
    if events == [] then []
    else PlacedBy(s, events[0], stake) + Placed(Step(s, events[0], stake), events[1..], stake)
  }

  /** Delivering one more event steps the replayed state and adds what that event places. */
  lemma {:induction false} ReplaySnoc(s: StrategyState, events: seq<Event>, e: Event, stake: real)
    ensures Replay(s, events + [e], stake) == Step(Replay(s, events, stake), e, stake)
    ensures Placed(s, events + [e], stake) == Placed(s, events, stake) + PlacedBy(Replay(s, events, stake), e, stake)
    decreases |events|
  {
    if events == [] {
      assert [e][1..] == [];
    } else {
      var t := Step(s, events[0], stake);
      assert (events + [e])[1..] == events[1..] + [e];
      ReplaySnoc(t, events[1..], e, stake);
    }
  }

  /** The order one event places: the decision of next(), nothing for a notification. */
  function PlacedBy(s: StrategyState, e: Event, stake: real): seq<Order> {
    match e
    case NextBar(rows, position) =>
      (match Decide(s.order, rows, position, stake) case Some(o) => [o] case None => [])
    case OrderNotice(_, _, _, _) => []
  }

  /** Executed prices of the Completed notifications on one side, in order. */
  function Fills(events: seq<Event>, buySide: bool): seq<real>
    decreases |events|
  {
    if events == [] then []
    else
      var now := match events[0]
        case OrderNotice(status, isBuy, price, _) =>
          if status == Completed && isBuy == buySide then [price] else []
        case NextBar(_, _) => [];
      now + Fills(events[1..], buySide)
  }

  /** The number of notifications that clear the pending order. */
  function Clearances(events: seq<Event>): nat
    decreases |events|
  {
    if events == [] then 0
    else
      (if events[0].OrderNotice? && !KeepsPending(events[0].status) then 1 else 0)
      + Clearances(events[1..])
  }

  function Pending(s: StrategyState): nat {
    if s.order.Some? then 1 else 0
  }

  /** Buys records exactly the prices of completed buys, sells those of completed sells. */
  lemma {:induction false} ReplayRecordsFills(s: StrategyState, events: seq<Event>, stake: real)
    ensures Replay(s, events, stake).buys == s.buys + Fills(events, true)
    ensures Replay(s, events, stake).sells == s.sells + Fills(events, false)
    decreases |events|
  {
    if events != [] {
      var t := Step(s, events[0], stake);
      ReplayRecordsFills(t, events[1..], stake);
    }
  }

  /**
   * At most one order is pending in the strategy's bookkeeping: every order
   * placed is matched by a notification that cleared the `order` field,
   * except the one still pending at the end. A Partial notice clears the
   * field too, so this says nothing about orders still live at the broker.
   */
  lemma {:induction false} OneOrderOutstanding(s: StrategyState, events: seq<Event>, stake: real)
    ensures |Placed(s, events, stake)| + Pending(s) <= Clearances(events) + Pending(Replay(s, events, stake))
    decreases |events|
  {
    if events != [] {
      var t := Step(s, events[0], stake);
      OneOrderOutstanding(t, events[1..], stake);
    }
  }

  /** From a fresh strategy, the orders placed never exceed the clearing notifications by more than one. */
  lemma PlacedAtMostClearedPlusOne(events: seq<Event>, stake: real)
    ensures |Placed(Initial, events, stake)| <= Clearances(events) + 1
  {
    OneOrderOutstanding(Initial, events, stake);
  }

  /** Whether next() places an order does not depend on the alpha score or on rows after the first. */
  lemma OnlyFirstSideMatters(order: Option<Order>, a: seq<SignalRow>, b: seq<SignalRow>, position: real, stake: real)
    requires a != [] && b != [] && a[0].side == b[0].side
    ensures Decide(order, a, position, stake) == Decide(order, b, position, stake)
  {
  }

  /** A bar delivered while an order is pending changes nothing and places nothing. */
  lemma PendingBlocksNext(s: StrategyState, rows: seq<SignalRow>, position: real, stake: real)
    requires s.order.Some?
    ensures Decide(s.order, rows, position, stake) == None
    ensures AfterNext(s, rows, position, stake) == s
  {
  }

  // -------------------------------------------------------- the strategy

  /** SimpleStrategy for one data feed. */
  class Strategy {
    const stake: real
    const longThreshold: real
    const shortThreshold: real
    var order: Option<Order>
    var buys: seq<real>
    var sells: seq<real>
    var barExecuted: Option<nat>

    function State(): StrategyState
      reads this
    {
      StrategyState(order, buys, sells, barExecuted)
    }

    constructor (stake: real := DefaultStake, longThreshold: real := DefaultLongThreshold,
                 shortThreshold: real := DefaultShortThreshold)
      ensures this.stake == stake
      ensures this.longThreshold == longThreshold && this.shortThreshold == shortThreshold
      ensures State() == Initial
    {
      this.stake := stake;
      this.longThreshold := longThreshold;
      this.shortThreshold := shortThreshold;
      order := None;
      buys := [];
      sells := [];
      barExecuted := None;
    }

    /** next(): apply the long/flat rule to the bar's signal rows unless an order is pending. */
    method Next(rows: seq<SignalRow>, position: real) returns (placed: Option<Order>)
      modifies this
      ensures placed == Decide(old(order), rows, position, stake)
      ensures State() == AfterNext(old(State()), rows, position, stake)
    {
      placed := None;
      if order.Some? {
        return;
      }
      if rows != [] {
        var side := rows[0].side;
        if side == "BUY" && position == 0.0 {
          placed := Some(Order(true, stake));
          order := placed;
        } else if side == "SELL" && position != 0.0 {
          placed := Some(CloseOrder(position));
          order := placed;
        }
      }
    }

    /** notify_order(): record a completed fill and release the pending order on any final status. */
    method NotifyOrder(status: OrderStatus, isBuy: bool, price: real, barsSeen: nat)
      modifies this
      ensures State() == AfterNotify(old(State()), status, isBuy, price, barsSeen)
    {
      if status == Submitted || status == Accepted {
        return;
      }
      if status == Completed {
        if isBuy {
          buys := buys + [price];
        } else {
          sells := sells + [price];
        }
        barExecuted := Some(barsSeen);
      }
      order := None;
    }

    /** Deliver a sequence of engine events to the strategy, returning the orders it placed. */
    method Run(events: seq<Event>) returns (placed: seq<Order>)
      modifies this
      ensures State() == Replay(old(State()), events, stake)
      ensures placed == Placed(old(State()), events, stake)
    {
      placed := [];
      var i := 0;
      while i < |events|
        invariant 0 <= i <= |events|
        invariant State() == Replay(old(State()), events[..i], stake)
        invariant placed == Placed(old(State()), events[..i], stake)
      {
        ghost var before := State();
        ReplaySnoc(old(State()), events[..i], events[i], stake);
        assert events[..i + 1] == events[..i] + [events[i]];
        match events[i] {
          case NextBar(rows, position) =>
            var o := Next(rows, position);
            if o.Some? {
              placed := placed + [o.value];
            }
          case OrderNotice(status, isBuy, price, barsSeen) =>
            NotifyOrder(status, isBuy, price, barsSeen);
        }
        assert State() == Step(before, events[i], stake);
        i := i + 1;
      }
      assert events[..i] == events;
    }
  }

  /**
   * A buy signal while flat, a repeated buy while that order is pending, a
   * hold, then a sell signal while long: one buy and one close are placed,
   * and each completed fill is recorded on its own side.
   */
  method BuyHoldSellScenario() {
    var strategy := new Strategy();
    var placed := strategy.Next([SignalRow(0.8, "BUY")], 0.0);
    assert placed == Some(Order(true, 1.0));
    strategy.NotifyOrder(Submitted, true, 0.0, 1);
    placed := strategy.Next([SignalRow(0.9, "BUY"), SignalRow(-0.9, "SELL")], 0.0);
    assert placed == None;
    strategy.NotifyOrder(Accepted, true, 0.0, 1);
    strategy.NotifyOrder(Completed, true, 100.0, 2);
    assert "HOLD" != "BUY" && "HOLD" != "SELL";
    placed := strategy.Next([SignalRow(0.1, "HOLD")], 1.0);
    assert placed == None;
    placed := strategy.Next([SignalRow(-0.7, "SELL")], 1.0);
    assert placed == Some(Order(false, 1.0));
    strategy.NotifyOrder(Completed, false, 90.0, 4);
    assert strategy.State() == StrategyState(None, [100.0], [90.0], Some(4));
  }

  // ------------------------------------------------------ run_backtest

  /** One OHLCV bar of a symbol's feed. */
  datatype Bar = Bar(date: string, open: real, high: real, low: real, close: real, volume: real)

  /** A data feed added to the engine: the symbol's name and its bars. */
  datatype Feed = Feed(name: string, bars: seq<Bar>)

  datatype StrategyParams = StrategyParams(stake: real, longThreshold: real, shortThreshold: real)

  /** The engine as run_backtest configures it before running it. */
  datatype Setup = Setup(
    cash: real,
    commission: real,
    strategy: StrategyParams,
    sizerStake: real,
    feeds: seq<Feed>)

  /** run_backtest either returns early with no feed, or runs the engine on its setup. */
  datatype Outcome = NoFeeds | Runs(setup: Setup)

  /** The number of symbols whose query returns bars. */
  function WithBars(symbols: seq<string>, ohlcv: string -> seq<Bar>): nat
    decreases |symbols|
  {
    if symbols == [] then 0
    else
      WithBars(symbols[..|symbols| - 1], ohlcv) + (if ohlcv(symbols[|symbols| - 1]) == [] then 0 else 1)
  }

  /** The feeds added for the symbols in order, skipping those without bars. */
  function LoadFeeds(symbols: seq<string>, ohlcv: string -> seq<Bar>): (feeds: seq<Feed>)
    ensures |feeds| == WithBars(symbols, ohlcv) <= |symbols|
    ensures forall k :: 0 <= k < |feeds| ==>
      feeds[k].bars != [] && feeds[k].name in symbols && feeds[k].bars == ohlcv(feeds[k].name)
    ensures feeds == [] <==> forall i :: 0 <= i < |symbols| ==> ohlcv(symbols[i]) == []
    ensures forall i :: 0 <= i < |symbols| && ohlcv(symbols[i]) != [] ==>
      Feed(symbols[i], ohlcv(symbols[i])) in feeds
    decreases |symbols|
  {
    if symbols == [] then []
    else
      var init, last := symbols[..|symbols| - 1], symbols[|symbols| - 1];
      var rest := LoadFeeds(init, ohlcv);
      assert forall k :: 0 <= k < |rest| ==> rest[k].name in symbols by {
        assert forall x :: x in init ==> x in symbols;
      }
      var feeds := rest + (if ohlcv(last) == [] then [] else [Feed(last, ohlcv(last))]);
      assert forall i :: 0 <= i < |symbols| && ohlcv(symbols[i]) != [] ==>
        Feed(symbols[i], ohlcv(symbols[i])) in feeds by {
        forall i | 0 <= i < |init| && ohlcv(symbols[i]) != []
          ensures Feed(symbols[i], ohlcv(symbols[i])) in rest
        {
          assert init[i] == symbols[i];
        }
      }
      feeds
  }

  /** Where the feed of symbols[i] lands: after the feeds of the symbols before it. */
  function FeedPosition(symbols: seq<string>, ohlcv: string -> seq<Bar>, i: nat): nat
    requires i <= |symbols|
  {
    |LoadFeeds(symbols[..i], ohlcv)|
  }

  /** The feeds loaded for a prefix of the symbols are a prefix of the feeds loaded for all. */
  lemma {:induction false} LoadFeedsPrefix(symbols: seq<string>, ohlcv: string -> seq<Bar>, i: nat)
    requires i <= |symbols|
    ensures LoadFeeds(symbols[..i], ohlcv) <= LoadFeeds(symbols, ohlcv)
    decreases |symbols|
  {
    if i < |symbols| {
      var init := symbols[..|symbols| - 1];
      assert init[..i] == symbols[..i];
      LoadFeedsPrefix(init, ohlcv, i);
    } else {
      assert symbols[..i] == symbols;
    }
  }

  /** A symbol with bars puts its feed last among the feeds of the symbols up to it. */
  lemma LoadFeedsAppends(symbols: seq<string>, ohlcv: string -> seq<Bar>, i: nat)
    requires i < |symbols| && ohlcv(symbols[i]) != []
    ensures LoadFeeds(symbols[..i + 1], ohlcv) == LoadFeeds(symbols[..i], ohlcv) + [Feed(symbols[i], ohlcv(symbols[i]))]
  {
    assert symbols[..i + 1][..i] == symbols[..i];
  }

  /** A symbol without bars adds no feed. */
  lemma LoadFeedsSkips(symbols: seq<string>, ohlcv: string -> seq<Bar>, i: nat)
    requires i < |symbols| && ohlcv(symbols[i]) == []
    ensures LoadFeeds(symbols[..i + 1], ohlcv) == LoadFeeds(symbols[..i], ohlcv)
  {
    assert symbols[..i + 1][..i] == symbols[..i];
  }

  /** The feeds loaded for a shorter prefix of the symbols are a prefix of those for a longer one. */
  lemma LoadFeedsGrow(symbols: seq<string>, ohlcv: string -> seq<Bar>, i: nat, j: nat)
    requires i <= j <= |symbols|
    ensures LoadFeeds(symbols[..i], ohlcv) <= LoadFeeds(symbols[..j], ohlcv)
  {
    assert symbols[..j][..i] == symbols[..i];
    LoadFeedsPrefix(symbols[..j], ohlcv, i);
  }

  /** A symbol's feed comes before the feeds of every later symbol. */
  lemma FeedPositionIncreases(symbols: seq<string>, ohlcv: string -> seq<Bar>, i: nat, j: nat)
    requires i < j <= |symbols| && ohlcv(symbols[i]) != []
    ensures FeedPosition(symbols, ohlcv, i) < FeedPosition(symbols, ohlcv, j)
  {
    LoadFeedsAppends(symbols, ohlcv, i);
    LoadFeedsGrow(symbols, ohlcv, i + 1, j);
  }

  /**
   * Feeds are added in the order of the symbols: the feed of every symbol
   * with bars sits at its FeedPosition, the first symbol with bars gets the
   * first feed, and a symbol's feed comes before the feeds of later symbols.
   */
  lemma LoadFeedsInOrder(symbols: seq<string>, ohlcv: string -> seq<Bar>, i: nat)
    requires i < |symbols| && ohlcv(symbols[i]) != []
    ensures FeedPosition(symbols, ohlcv, i) < |LoadFeeds(symbols, ohlcv)|
    ensures LoadFeeds(symbols, ohlcv)[FeedPosition(symbols, ohlcv, i)] == Feed(symbols[i], ohlcv(symbols[i]))
    ensures (forall j :: 0 <= j < i ==> ohlcv(symbols[j]) == []) ==> FeedPosition(symbols, ohlcv, i) == 0
    ensures forall j :: i < j <= |symbols| ==> FeedPosition(symbols, ohlcv, i) < FeedPosition(symbols, ohlcv, j)
  {
    LoadFeedsAppends(symbols, ohlcv, i);
    LoadFeedsPrefix(symbols, ohlcv, i + 1);
    if forall j :: 0 <= j < i ==> ohlcv(symbols[j]) == [] {
      assert forall j :: 0 <= j < i ==> symbols[..i][j] == symbols[j];
    }
    forall j | i < j <= |symbols|
      ensures FeedPosition(symbols, ohlcv, i) < FeedPosition(symbols, ohlcv, j)
    {
      FeedPositionIncreases(symbols, ohlcv, i, j);
    }
  }

  /**
   * run_backtest: set the broker's cash and commission, add one feed per
   * symbol that has bars, and return early when no feed was added.
   * ohlcv gives the bars the database holds for a symbol in the date range.
   */
  method RunBacktest(symbols: seq<string>, ohlcv: string -> seq<Bar>,
                     cash: real := DefaultCash, commission: real := DefaultCommission,
                     minAlphaBuy: real := DefaultLongThreshold, maxAlphaSell: real := DefaultShortThreshold)
    returns (outcome: Outcome)
    ensures outcome.NoFeeds? <==> forall i :: 0 <= i < |symbols| ==> ohlcv(symbols[i]) == []
    ensures outcome.Runs? ==>
      outcome.setup.cash == cash && outcome.setup.commission == commission &&
      outcome.setup.strategy == StrategyParams(DefaultStake, minAlphaBuy, maxAlphaSell) &&
      outcome.setup.sizerStake == DefaultStake &&
      outcome.setup.feeds == LoadFeeds(symbols, ohlcv)
  {
    var feeds: seq<Feed> := [];
    for i := 0 to |symbols|
      invariant feeds == LoadFeeds(symbols[..i], ohlcv)
    {
      assert symbols[..i + 1][..i] == symbols[..i];
      var bars := ohlcv(symbols[i]);
      if bars == [] {
        continue;
      }
      feeds := feeds + [Feed(symbols[i], bars)];
    }
    assert symbols[..|symbols|] == symbols;
    if feeds == [] {
      return NoFeeds;
    }
    outcome := Runs(Setup(cash, commission, StrategyParams(DefaultStake, minAlphaBuy, maxAlphaSell), DefaultStake, feeds));
  }
}

=== FILE: metrics.dfy ===
/**
 * Performance metrics of an equity curve (eval/metrics.py, calculate_metrics).
 *
 * The curve is a sequence of exact reals. pandas' sample standard deviation
 * (ddof = 1) is undefined for fewer than two returns and yields NaN; that
 * case is kept as the `NaN` alternative of `Float`. The square root is not
 * computable over Dafny's reals, so it is a parameter constrained by `SqrtFn`.
 */
module Metrics {

  /** Trading days per year used to annualise. */
  const TradingDays: real := 252.0

  /** A metric value: a real number, or the NaN pandas produces for an undefined statistic. */
  datatype Float = Num(value: real) | NaN

  /** A square-root function: non-negative on non-negative inputs, and zero exactly at zero. */
  type SqrtFn = f: real -> real | forall x :: 0.0 <= x ==> 0.0 <= f(x) && (f(x) == 0.0 <==> x == 0.0)
    witness (x: real) => x

  /** The four numbers calculate_metrics returns. */
  datatype Report = Report(totalReturn: real, annualizedVolatility: Float, sharpeRatio: Float, maxDrawdown: real)

  predicate Positive(s: seq<real>) {
    forall i :: 0 <= i < |s| ==> 0.0 < s[i]
  }

  predicate NonDecreasing(s: seq<real>) {
    forall i, j :: 0 <= i <= j < |s| ==> s[i] <= s[j]
  }

  predicate Constant(xs: seq<real>, c: real) {
    forall i :: 0 <= i < |xs| ==> xs[i] == c
  }

  // ---------------------------------------------------------------- returns

  /** Period-over-period simple returns (pct_change().dropna()). */
  function Returns(s: seq<real>): (r: seq<real>)
    requires Positive(s)
    ensures |r| == if |s| == 0 then 0 else |s| - 1
    decreases |s|
  {
    if |s| < 2 then [] else [s[1] / s[0] - 1.0] + Returns(s[1..])
  }

  /** The i-th return compares point i + 1 with point i. */
  lemma {:induction false} ReturnAt(s: seq<real>, i: nat)
    requires Positive(s) && i + 1 < |s|
    ensures Returns(s)[i] == s[i + 1] / s[i] - 1.0
    decreases i
  {
    if i > 0 {
      ReturnAt(s[1..], i - 1);
    }
  }

  /** Compounded growth of a sequence of returns: the product of 1 + r. */
  function Growth(r: seq<real>): real {
    if r == [] then 1.0 else (1.0 + r[0]) * Growth(r[1..])
  }

  /** Compounding the returns gives back the ratio of the last point to the first. */
  lemma {:induction false} GrowthTelescopes(s: seq<real>)
    requires Positive(s) && 2 <= |s|
    ensures Growth(Returns(s)) == s[|s| - 1] / s[0]
    decreases |s|
  {
    var r := Returns(s);
    assert r[0] == s[1] / s[0] - 1.0;
    assert r[1..] == Returns(s[1..]);
    if |s| == 2 {
      assert r[1..] == [];
    } else {
      GrowthTelescopes(s[1..]);
      var a, b, c := s[0], s[1], s[|s| - 1];
      assert Growth(r[1..]) == c / b;
      calc {
        Growth(r);
        (1.0 + (b / a - 1.0)) * (c / b);
        (b / a) * (c / b);
        { assert b / a * (c / b) == (b * c) / (a * b); }
        c / a;
      }
    }
  }

  // ------------------------------------------------------ mean and variance

  function Sum(xs: seq<real>): real {
    if xs == [] then 0.0 else xs[0] + Sum(xs[1..])
  }

  function Mean(xs: seq<real>): real
    requires xs != []
  {
    Sum(xs) / (|xs| as real)
  }

  // Squares are written Product(d, d) rather than d * d: the solver combines
  // a named product with the positivity facts below where it misses a bare one.
  function Product(a: real, b: real): real {
    a * b
  }

  lemma ProductPositive(a: real, b: real)
    requires 0.0 < a && 0.0 < b
    ensures 0.0 < Product(a, b)
  {
  }

  /** A square is never negative, and is positive away from zero. */
  lemma SquarePositive(d: real)
    ensures 0.0 <= Product(d, d)
    ensures d != 0.0 ==> 0.0 < Product(d, d)
  {
    if d < 0.0 {
      ProductPositive(-d, -d);
      assert Product(d, d) == Product(-d, -d);
    } else if 0.0 < d {
      ProductPositive(d, d);
    }
  }

  /** Sum of squared deviations from m. */
  function SquaredDeviations(xs: seq<real>, m: real): (d: real)
    ensures 0.0 <= d
  {
    if xs == [] then 0.0
    else
      SquarePositive(xs[0] - m);
      Product(xs[0] - m, xs[0] - m) + SquaredDeviations(xs[1..], m)
  }

  lemma {:induction false} SumConstant(xs: seq<real>, c: real)
    requires Constant(xs, c)
    ensures Sum(xs) == (|xs| as real) * c
    decreases |xs|
  {
    if xs != [] {
      SumConstant(xs[1..], c);
    }
  }

  lemma {:induction false} SquaredDeviationsZero(xs: seq<real>, m: real)
    ensures SquaredDeviations(xs, m) == 0.0 <==> Constant(xs, m)
    decreases |xs|
  {
    if xs != [] {
      SquaredDeviationsZero(xs[1..], m);
      SquarePositive(xs[0] - m);
      assert Constant(xs, m) <==> xs[0] == m && Constant(xs[1..], m) by {
        if xs[0] == m && Constant(xs[1..], m) {
          forall i | 1 <= i < |xs| ensures xs[i] == m { assert xs[i] == xs[1..][i - 1]; }
        }
      }
      if xs[0] == m {
        assert Product(xs[0] - m, xs[0] - m) == 0.0;
      }
    }
  }

  /** Sample variance (ddof = 1); NaN with fewer than two values, as pandas gives. */
  function SampleVariance(xs: seq<real>): (v: Float)
    ensures v.Num? <==> 2 <= |xs|
    ensures v.Num? ==> 0.0 <= v.value
  {
    if |xs| < 2 then NaN else Num(SquaredDeviations(xs, Mean(xs)) / ((|xs| - 1) as real))
  }

  /** Sample standard deviation; zero exactly when the sample variance is zero. */
  function SampleStd(xs: seq<real>, sqrt: SqrtFn): (sd: Float)
    ensures sd.Num? <==> 2 <= |xs|
    ensures sd.Num? ==> 0.0 <= sd.value && (sd.value == 0.0 <==> SampleVariance(xs) == Num(0.0))
  {
    match SampleVariance(xs)
    case NaN => NaN
    case Num(v) => Num(sqrt(v))
  }

  /** The sample variance of at least two values is zero exactly when they are all equal. */
  lemma VarianceZeroIffConstant(xs: seq<real>)
    requires 2 <= |xs|
    ensures SampleVariance(xs) == Num(0.0) <==> Constant(xs, xs[0])
  {
    var m := Mean(xs);
    var n := (|xs| - 1) as real;
    SquaredDeviationsZero(xs, m);
    assert SampleVariance(xs) == Num(SquaredDeviations(xs, m) / n);
    if Constant(xs, xs[0]) {
      SumConstant(xs, xs[0]);
      assert m == xs[0];
    }
    if SquaredDeviations(xs, m) == 0.0 {
      assert xs[0] == m;
    }
  }

  // -------------------------------------------------------------- drawdown

  function Max(a: real, b: real): real {
    if a < b then b else a
  }

  /** Running maximum (cummax): each point is at most the running maximum at its index. */
  function CumMax(s: seq<real>): (m: seq<real>)
    ensures |m| == |s|
    ensures forall i :: 0 <= i < |s| ==> s[i] <= m[i]
    decreases |s|
  {
    if s == [] then []
    else
      var p := CumMax(s[..|s| - 1]);
      p + [if p == [] then s[|s| - 1] else Max(p[|p| - 1], s[|s| - 1])]
  }

  /** The running maximum at i is the largest of the first i + 1 points. */
  lemma {:induction false} CumMaxIsPrefixMax(s: seq<real>, i: nat)
    requires i < |s|
    ensures CumMax(s)[i] in s[..i + 1]
    ensures forall j :: 0 <= j <= i ==> s[j] <= CumMax(s)[i]
    decreases |s|
  {
    var p := CumMax(s[..|s| - 1]);
    assert CumMax(s) == p + [if p == [] then s[|s| - 1] else Max(p[|p| - 1], s[|s| - 1])];
    if i < |s| - 1 {
      CumMaxIsPrefixMax(s[..|s| - 1], i);
      assert CumMax(s)[i] == p[i];
      assert s[..|s| - 1][..i + 1] == s[..i + 1];
    } else if |s| > 1 {
      var init := s[..|s| - 1];
      CumMaxIsPrefixMax(init, i - 1);
      assert init[..i] == s[..i];
      assert s[..i + 1] == s[..i] + [s[i]];
      assert CumMax(s)[i] == Max(p[i - 1], s[i]);
      assert forall j :: 0 <= j < i ==> s[j] == init[j];
    }
  }

  /** The running maximum never decreases. */
  lemma CumMaxNonDecreasing(s: seq<real>)
    ensures NonDecreasing(CumMax(s))
  {
    var m := CumMax(s);
    forall i, j | 0 <= i <= j < |s| ensures m[i] <= m[j] {
      CumMaxIsPrefixMax(s, i);
      CumMaxIsPrefixMax(s, j);
      var k :| 0 <= k <= i && s[k] == m[i];
    }
  }

  /** Drawdown of each point from the running maximum: E / cummax(E) - 1. */
  function Drawdowns(s: seq<real>): (d: seq<real>)
    requires Positive(s)
    ensures |d| == |s|
  {
    var m := CumMax(s);
    seq(|s|, i requires 0 <= i < |s| => s[i] / m[i] - 1.0)
  }

  /** Every drawdown point lies in (-1, 0]. */
  lemma DrawdownBounds(s: seq<real>, i: nat)
    requires Positive(s) && i < |s|
    ensures -1.0 < Drawdowns(s)[i] <= 0.0
    ensures Drawdowns(s)[i] == 0.0 <==> s[i] == CumMax(s)[i]
  {
    Ratio(s[i], CumMax(s)[i]);
  }

  /** A ratio of positive reals x / m with x <= m lies in (0, 1], and is 1 only when x == m. */
  lemma Ratio(x: real, m: real)
    requires 0.0 < x <= m
    ensures 0.0 < x / m <= 1.0
    ensures x / m == 1.0 <==> x == m
  {
    var q := x / m;
    assert q * m == x;
  }

  /** Smallest element of a non-empty sequence. */
  function Min(xs: seq<real>): (r: real)
    requires xs != []
    ensures r in xs
    ensures forall i :: 0 <= i < |xs| ==> r <= xs[i]
  {
    if |xs| == 1 then xs[0]
    else
      var t := Min(xs[1..]);
      if xs[0] <= t then xs[0] else t
  }

  function MaxDrawdown(s: seq<real>): real
    requires Positive(s) && s != []
  {
    Min(Drawdowns(s))
  }

  /** The maximum drawdown of positive equity lies in (-1, 0]. */
  lemma MaxDrawdownBounds(s: seq<real>)
    requires Positive(s) && s != []
    ensures -1.0 < MaxDrawdown(s) <= 0.0
  {
    var d := Drawdowns(s);
    var k :| 0 <= k < |d| && d[k] == MaxDrawdown(s);
    DrawdownBounds(s, k);
    DrawdownBounds(s, 0);
  }

  /** The maximum drawdown is zero exactly when the curve never falls. */
  lemma MaxDrawdownZeroIff(s: seq<real>)
    requires Positive(s) && s != []
    ensures MaxDrawdown(s) == 0.0 <==> NonDecreasing(s)
  {
    var d, m := Drawdowns(s), CumMax(s);
    if NonDecreasing(s) {
      var k :| 0 <= k < |d| && d[k] == MaxDrawdown(s);
      CumMaxIsPrefixMax(s, k);
      var j :| 0 <= j <= k && s[j] == m[k];
      DrawdownBounds(s, k);
    }
    if MaxDrawdown(s) == 0.0 {
      forall i, j | 0 <= i <= j < |s| ensures s[i] <= s[j] {
        DrawdownBounds(s, j);
        CumMaxIsPrefixMax(s, j);
      }
    }
  }

  // ----------------------------------------------------------- the report

  /** Scales a standard deviation by the positive annualisation factor; NaN stays NaN. */
  function Annualize(sd: Float, annual: real): (v: Float)
    requires 0.0 < annual
    ensures v.Num? <==> sd.Num?
    ensures v.Num? ==> (0.0 <= v.value <==> 0.0 <= sd.value) && (v.value == 0.0 <==> sd.value == 0.0)
  {
    match sd
    case NaN => NaN
    case Num(x) =>
      if x < 0.0 then
        assert x * annual < 0.0 by { assert (-x) * annual > 0.0; }
        Num(x * annual)
      else
        assert 0.0 < x ==> 0.0 < x * annual;
        Num(x * annual)
  }

  /** calculate_metrics: zero report for curves shorter than two points. */
  function CalculateMetrics(curve: seq<real>, sqrt: SqrtFn): (m: Report)
    requires Positive(curve)
    ensures |curve| < 2 ==> m == Report(0.0, Num(0.0), Num(0.0), 0.0)
    ensures m.annualizedVolatility.Num? ==> 0.0 <= m.annualizedVolatility.value
    ensures 2 <= |curve| ==>
      (m.annualizedVolatility.Num? <==> 3 <= |curve|) &&
      (m.sharpeRatio.Num? <==> 3 <= |curve|) &&
      (m.annualizedVolatility == Num(0.0) ==> m.sharpeRatio == Num(0.0))
  {
    if |curve| < 2 then Report(0.0, Num(0.0), Num(0.0), 0.0)
    else
      var periodReturns := Returns(curve);
      var totalReturn := curve[|curve| - 1] / curve[0] - 1.0;
      var sd := SampleStd(periodReturns, sqrt);
      var annual := sqrt(TradingDays);
      var volatility := Annualize(sd, annual);
      var sharpe :=
        if sd.NaN? then NaN
        else if sd.value != 0.0 then Num(Mean(periodReturns) / sd.value * annual)
        else Num(0.0);
      Report(totalReturn, volatility, sharpe, MaxDrawdown(curve))
  }

  /** The total return depends only on the first and the last point. */
  lemma TotalReturnEndpoints(a: seq<real>, b: seq<real>, sqrt: SqrtFn)
    requires Positive(a) && Positive(b) && 2 <= |a| && 2 <= |b|
    requires a[0] == b[0] && a[|a| - 1] == b[|b| - 1]
    ensures CalculateMetrics(a, sqrt).totalReturn == CalculateMetrics(b, sqrt).totalReturn
  {
  }

  /** The total return is the compounded period returns, less one. */
  lemma TotalReturnCompounds(curve: seq<real>, sqrt: SqrtFn)
    requires Positive(curve) && 2 <= |curve|
    ensures CalculateMetrics(curve, sqrt).totalReturn == Growth(Returns(curve)) - 1.0
  {
    GrowthTelescopes(curve);
  }

  /** The Sharpe ratio is zero whenever the standard deviation of the returns is zero. */
  lemma SharpeZeroWhenStdZero(curve: seq<real>, sqrt: SqrtFn)
    requires Positive(curve) && 2 <= |curve|
    requires SampleStd(Returns(curve), sqrt) == Num(0.0)
    ensures CalculateMetrics(curve, sqrt).sharpeRatio == Num(0.0)
    ensures CalculateMetrics(curve, sqrt).annualizedVolatility == Num(0.0)
  {
  }

  /** With three or more points, volatility is zero exactly when every period return is the same. */
  lemma VolatilityZeroIffConstantReturns(curve: seq<real>, sqrt: SqrtFn)
    requires Positive(curve) && 3 <= |curve|
    ensures CalculateMetrics(curve, sqrt).annualizedVolatility == Num(0.0)
        <==> Constant(Returns(curve), Returns(curve)[0])
  {
    VarianceZeroIffConstant(Returns(curve));
  }

  /** A two-point curve has one return, whose sample standard deviation is NaN. */
  lemma TwoPointsGiveNaN(curve: seq<real>, sqrt: SqrtFn)
    requires Positive(curve) && |curve| == 2
    ensures CalculateMetrics(curve, sqrt).annualizedVolatility == NaN
    ensures CalculateMetrics(curve, sqrt).sharpeRatio == NaN
  {
  }

  /** The reported maximum drawdown lies in (-1, 0], and is 0 exactly for a curve that never falls. */
  lemma ReportedDrawdown(curve: seq<real>, sqrt: SqrtFn)
    requires Positive(curve)
    ensures -1.0 < CalculateMetrics(curve, sqrt).maxDrawdown <= 0.0
    ensures CalculateMetrics(curve, sqrt).maxDrawdown == 0.0 <==> |curve| < 2 || NonDecreasing(curve)
  {
    if 2 <= |curve| {
      MaxDrawdownBounds(curve);
      MaxDrawdownZeroIff(curve);
    }
  }
}
